=== FILE: README.md ===
# Session gate and content handlers of the ZHIMPA ZHIMPA recipe site

A Dafny model of `script.js`, the site's one browser script, with the DOM
plumbing stripped away. Every DOM read is an input and every DOM write is an
output.

- **Session store** (`session.dfy`, module `Session`). The two `localStorage` keys are `isLoggedIn` and `currentUser`. The model keeps them as a `Store` record. The store is cleared when the script loads and by `logout`; login and signup set both keys. `Valid` is the invariant that both keys are present together or absent together.
- **Access policy** (`access.dfy`, module `Access`). `checkAuth` takes the page name from the last `/`-segment of the path. It returns a JavaScript value and at most one navigation target, and the navigation is an output rather than a jump.
- **Gated content handlers** (`content.dfy`, module `Content`). These are review, discussion, share and save. Each one suppresses the event default, asks `checkAuth`, and acts only when the answer is truthy. Review and discussion prepend a card to their container, which is modelled as a sequence of nodes with the first child first.
- **Recipe filter** (`filter.dfy`, module `Filter`). This part is ungated: a click makes the clicked button the only active one and shows exactly the cards its filter selects.
- **Page** (`page.dfy`, module `Page`). A dispatcher routes one event at a time to the handlers. A lemma shows that the session invariant survives any run of events after page load.
- **Strings** (`strings.dfy`) and **Wrappers** (`wrappers.dfy`) are supporting modules. `Strings` holds the JavaScript `split`, `repeat` and `includes` the script uses; `split` comes with round trips in both directions against `Join`, and `includes` is checked against a direct definition of an occurrence. `Wrappers` holds `Option`.

Behaviour of the code that the model keeps as written:

- The discussion handler (script.js:323-355) does not check for empty name or message fields.
- When no redirect happens, `checkAuth` returns the raw stored string or `null`, not a boolean (script.js:32). `Access.CheckAuth` returns that value, and its contract states that the value's truthiness always equals the login state.
- A gated handler on a public page while logged in gets `true` together with a redirect home (script.js:26-29). It then goes on to act, because assigning `href` does not stop the handler.
- A review rating outside 0..5 makes `String.prototype.repeat` throw a RangeError before anything is inserted (script.js:158). `Content.Stars` returns `None` for such a rating, and no alert is shown.

## Model

| member | source | states |
|---|---|---|
| Strings.Split | script.js:10 | `split` always yields at least one part, no part contains the separator, and joining the parts with the separator gives back the input |
| Strings.SplitJoin | script.js:10 | the converse round trip: for parts free of the separator, joining and then splitting returns the same parts |
| Strings.SplitAround | script.js:10 | splitting `a + sep + b` gives the parts of `a` followed by the parts of `b` |
| Strings.FirstPart | script.js:238 | the first part of a split is a separator-free prefix that is either the whole string or followed by the separator |
| Strings.LastPart | script.js:10 | the last part of a split is a separator-free suffix that is either the whole string or preceded by the separator |
| Strings.Repeat | script.js:158 | `c.repeat(n)` has length n and every character is c |
| Strings.Includes | script.js:352 | `s.includes(sub)` is true exactly when `sub` occurs in `s` at some index |
| Session.PageLoad | script.js:4-5 | whatever the store held before, script load leaves a valid store with no session and no user |
| Session.Logout | script.js:87-91 | logout leaves a valid store with no session and no user, and navigates to login.html with no alert |
| Session.NameFromEmail | script.js:238 | the display name has no `@` and is either the whole email or the prefix that ends just before an `@` |
| Session.NameIsTextBeforeFirstAt | script.js:238 | conversely, the display name is exactly the text before the first `@`, or the whole email when it has no `@` |
| Session.Login | script.js:235-250 | login succeeds exactly when both fields are non-empty; success stores `'true'` and the user {name derived from the email, email} and goes to index.html; failure leaves the store as it was, with no navigation and a "fill in all fields" alert |
| Session.LoginExample | script.js:235-247 | logging in as `a@b.com` logs the visitor in as the user named `a` |
| Session.Signup | script.js:269-291 | a password mismatch is rejected before any emptiness check; otherwise an empty name, email or password is rejected; both rejections leave the store as it was; signup succeeds exactly when neither rejection applies and then stores {name, email} and goes to index.html |
| Session.DisplayName | script.js:77 | the header name is never empty: it is the user's name when that name is non-empty, and "User" when there is no user or the name is empty |
| Session.LoginDisplayName | script.js:238 | the `DisplayName` of the store a successful login leaves is the email's local part, and "User" when that part is empty (the email starts with `@`); the page never shows it, because the redirect's reload clears the store before the header is filled |
| Session.TransitionsKeepValid | script.js:242-243 | page load, logout, login and signup each turn a valid store into a valid one, because they set or clear both keys together |
| Session.ValidIsTwoState | script.js:285-286 | in a valid store the visitor is logged in exactly when a user record is present, and a logged-out store is the empty store |
| Access.PageName | script.js:10 | the page name contains no `/` and is either the whole path or the suffix that follows the path's last `/` |
| Access.StoredFlag | script.js:9 | the stored login flag is truthy exactly when the visitor is logged in |
| Access.CheckAuth | script.js:8-33 | a logged-out visitor on a protected page is sent to login.html; a logged-in visitor on login.html or signup.html is sent to index.html; otherwise there is no redirect and the raw flag is returned; a redirect always comes with the boolean `false` or `true` matching the login state; in every case the result's truthiness equals the login state |
| Access.PageNameOfJoin | script.js:10 | the page name of `dir/name` is `name` whenever `name` contains no `/` |
| Access.TrailingSlashIsProtected | script.js:10-23 | a path ending in `/` names the empty page, which is protected, so a logged-out visitor there is sent to login.html and gets false |
| Access.RedirectSettles | script.js:19-30 | `checkAuth` taken alone: its redirect target, checked against the same store, asks for no further redirect (on a real navigation the script reloads and clears the store, which `Access.FreshLoadGate` covers) |
| Access.FreshLoadGate | script.js:4-23 | on a freshly loaded page the check returns `false` with a redirect to login.html on a protected page, and the absent flag (`null`) with no redirect on a public one; it never sends the visitor home |
| Content.Stars | script.js:158 | the rating string exists exactly when the rating is 0..5; it then has five glyphs, and position i is a filled star exactly when i < rating and an empty star otherwise |
| Content.Heading | script.js:159 | the heading is never empty: it is the title when the title is non-empty, and "Great recipe!" otherwise |
| Content.SubmitReview | script.js:127-171 | the event default is always suppressed and the redirect is the one `checkAuth` asks for; a card is added exactly when the visitor is logged in and a rating in 0..5 is checked, otherwise the list is unchanged and the form is not reset; a new card goes first with the author, date, stars, heading and body, and all previous cards follow in order; "Please select a rating" is shown exactly when a logged-in visitor checked no rating, and the thank-you alert exactly when a card is added |
| Content.FirstWhere | script.js:351 | the index returned, if any, is the first element that satisfies the predicate; `None` means no element does |
| Content.RemoveFirstParagraphIfNotice | script.js:351-354 | the search-and-remove of the first `<p>` never lengthens the container |
| Content.PostDiscussionAsWritten | script.js:323-355 | the discussion handler as written: the event default is always suppressed, and without a session neither the container nor the form changes |
| Content.AsWrittenKeepsPlaceholder | script.js:345-354 | the handler as written puts the new "Just now" card with the poster's name and message first and leaves every earlier node unchanged, so a placeholder is never removed; it strips the new card's own body exactly when that body mentions "No messages yet" |
| Content.AsWrittenPlaceholderSurvives | script.js:350-354 | a concrete case: a first post of "Hello" into a container holding only the placeholder leaves the placeholder in place |
| Content.RemoveNotice | script.js:350-354 | removes one placeholder notice when there is one and changes nothing otherwise; it keeps every node that is not a notice and adds no node |
| Content.PostDiscussion | script.js:323-355 | the corrected discussion handler: the event default is always suppressed; without a session nothing changes; with a session the new card is first and the earlier content follows with its placeholder notice removed |
| Content.RemoveNoticeDeletesFirst | script.js:350-354 | the notice removed is the first one, and the other nodes keep their order: the result is the list with the first notice's index deleted |
| Content.PostClearsNotice | script.js:350-354 | with at most one placeholder, a corrected post leaves no placeholder; when there was none, the earlier content is kept intact after the new card |
| Content.SubmitShare | script.js:200-219 | the event default is always suppressed, and the acknowledgement and form reset happen exactly when the visitor is logged in |
| Content.ClickSave | script.js:360-366 | only a click on an element whose text is exactly "Save" is handled; such a click suppresses the default and is acknowledged exactly when the visitor is logged in; every other click does nothing |
| Filter.Activate | script.js:102-105 | after the update, exactly the clicked button is active and each button keeps its filter |
| Filter.Show | script.js:110-116 | a card is shown exactly when the filter is "all" or equals the card's category, and each card keeps its category |
| Filter.Click | script.js:100-117 | after a click, exactly the clicked button is active, and each card is visible exactly when the clicked filter selects its category |
| Filter.ClickIdempotent | script.js:100-117 | clicking the same button twice gives the same state as clicking it once |
| Filter.ClickForgetsHistory | script.js:102-116 | the state after a click depends only on the filters, the categories and the clicked button, not on what was active or visible before |
| Filter.ClickShowsCategory | script.js:111 | the "all" button shows every card, and any other button shows exactly the cards of its category |
| Page.Boot | script.js:41-48 | the load-time clear plus the `DOMContentLoaded` check leave the page (path and content) as it was with an empty store; they send the visitor to login.html on a protected page and nowhere on a public one |
| Page.Step | script.js:41-58 | every event keeps the store valid and keeps the page path; only login, signup and logout change the store; without a session no content event changes reviews or discussion; each event leaves alone the lists it does not handle; a review event adds one card in front of the old ones exactly when the visitor is logged in and a rating in 0..5 is checked; a logged-in discussion post puts the new card first and the earlier content, minus its first notice, after it; a filter click activates exactly the clicked button, keeps every button's filter and card's category, and shows exactly the cards its filter selects; a click on no existing button changes nothing; logout navigates to login.html, a login or signup navigates to index.html exactly when it succeeds and nowhere otherwise, the gated events report `checkAuth`'s redirect, and filter clicks and clicks on anything but "Save" navigate nowhere |
| Page.RunKeepsValid | script.js:285-286 | through any sequence of events the login flag and the user record stay present together or absent together |
| Page.ContentEventsKeepSession | script.js:122-221 | a run with no login, signup or logout events leaves the session exactly as it was |
| Page.LoggedOutChangesNoContent | script.js:127-130 | starting logged out, a run with no credential events changes neither the reviews nor the discussion |

## Findings

| source | as written | input that shows it | evidently intended | confidence | as-written member | corrected member |
|---|---|---|---|---|---|---|
| script.js:345-354 | the container's first `<p>` is looked up after the new message has been prepended, so the lookup always finds the new message's own body | logged in, post "Hello" into a container holding only `<p>No messages yet. Start the conversation!</p>`: the placeholder stays. A message that itself contains "No messages yet" loses its body | the placeholder is removed on the first successful post, and the new message is never touched | high (not executed) | Content.AsWrittenPlaceholderSurvives | Content.PostClearsNotice |

`Page.Step` uses the corrected `Content.PostDiscussion`.

## Left out

- The DOM is not modelled: element lookup, `innerHTML` rendering and parsing, and listener registration order. Containers are sequences of nodes, a message's text is kept as text, and no markup inside it is parsed. The source escapes nothing, and the model adds no escaping.
- A missing container element is not modelled. If `reviews-container` or `discussion-container` is absent, the script throws on `insertBefore`.
- `localStorage` is replaced by the `Store` record. The JSON encoding of `currentUser` is not modelled; the record is stored as is.
- Navigation through `window.location.href` is an output value. The page never changes in the model.
- `alert` text is not modelled. Which alert is shown is modelled by `Session.Notice` for the credential forms and by `Content.ContentAlert` for the review form. Share and save are modelled as an acknowledgement flag. `console.log` is dropped.
- Dates are not computed. `new Date().toISOString()` is an opaque `date` input to `Content.SubmitReview`, and the footer year (`getFullYear`) is left out.
- The rating radio's string value is modelled as the integer it converts to. `repeat` applied to non-numeric strings is not modelled.
- The share form reads seven fields (script.js:206-212). Six of them are never used; `title` appears only in the alert text, which is not modelled.
- The newsletter and contact forms are left out because they only acknowledge and reset the form. The newsletter form acknowledges only a non-empty email.
- `updateUIForLoggedInUser` is left out except for its name fallback, `Session.DisplayName`. It runs only from the `DOMContentLoaded` handler when `checkAuth` is truthy (script.js:43-47). After the load-time clear that never happens, so no name the model computes is ever displayed. Its showing and hiding of menus is left out.
- Content.RemoveFirstParagraphIfNotice: its contract only bounds the container's length. What it does right after a prepend is stated by Content.AsWrittenKeepsPlaceholder.
- Content.PostDiscussionAsWritten: its contract covers only the logged-out case. The logged-in case is stated by Content.AsWrittenKeepsPlaceholder.
- Page.Run: models one tab whose store only its own events write. Every tab and window of the site shares `localStorage`, so a page load elsewhere (script.js:4-5) or a logout in another tab clears both keys in the middle of this page's run. `Page.ContentEventsKeepSession` holds only under this one-tab assumption. The handlers themselves take any `Store`.
- Page.Step: a discussion post is routed to the corrected handler `Content.PostDiscussion`, not to `Content.PostDiscussionAsWritten`, so a logged-in post removes the first placeholder notice where script.js:345-354 leaves it in place (see Findings).
- A `FilterClick` whose index names no button is ignored by `Page.Step`. In the page, a click always comes from an existing button.

=== FILE: access.dfy ===
/** `checkAuth()`: the page-access policy evaluated on page activation and
    again at the start of every gated handler. */
module Access {
  import opened Wrappers
  import Strings
  import opened Session

  /** The JavaScript values `checkAuth` can return: a boolean from one of
      its two redirecting branches, or the raw `getItem` result otherwise. */
  datatype JsValue = JsBool(b: bool) | JsNull | JsString(s: string)

  /** JavaScript truthiness, as used by `if (!checkAuth()) return;`. */
  predicate Truthy(v: JsValue)
  {
    match v
    case JsBool(b) => b
    case JsNull => false
    case JsString(s) => s != ""
  }

  /** What `checkAuth` hands back: its return value and the navigation it
      requested by assigning `window.location.href`, if any. Navigation
      does not halt the caller, so it is an output, not a jump. */
  datatype AuthCheck = AuthCheck(result: JsValue, redirect: Option<string>)

  /** The page name: the last `/`-separated segment of the path
      (`pathname.split('/').pop()`). */
  function PageName(path: string): (page: string)
    ensures '/' !in page
    ensures page == path ||
            (|page| < |path| && path == path[..|path| - |page| - 1] + "/" + page)
  {
    Strings.LastPart(path, '/');
    Strings.Last(Strings.Split(path, '/'))
  }

  /** Pages reachable without a session. */
  predicate IsPublic(page: string)
  {
    page == "login.html" || page == "signup.html"
  }

  /** `getItem('isLoggedIn')` as a JavaScript value. */
  function StoredFlag(s: Store): (v: JsValue)
    ensures Truthy(v) <==> LoggedIn(s)
  {
    match s.isLoggedIn
    case Some(x) => JsString(x)
    case None => JsNull
  }

  /** The policy, in the source's order: logged out on a protected page goes
      to the login page; logged in on a public page goes home; otherwise
      there is no navigation. */
  function CheckAuth(s: Store, path: string): (r: AuthCheck)
    ensures Truthy(r.result) <==> LoggedIn(s)
    ensures r.redirect == Some(LoginPage) <==> !LoggedIn(s) && !IsPublic(PageName(path))
    ensures r.redirect == Some(HomePage) <==> LoggedIn(s) && IsPublic(PageName(path))
    ensures r.redirect == None <==>
              (LoggedIn(s) && !IsPublic(PageName(path))) || (!LoggedIn(s) && IsPublic(PageName(path)))
    ensures r.redirect == None ==> r.result == StoredFlag(s)
    ensures r.redirect.Some? ==> r.result == JsBool(LoggedIn(s))
  {
    var page := PageName(path);
    if !LoggedIn(s) && !IsPublic(page) then
      AuthCheck(JsBool(false), Some(LoginPage))
    else if LoggedIn(s) && (page == "login.html" || page == "signup.html") then
      AuthCheck(JsBool(true), Some(HomePage))
    else
      AuthCheck(StoredFlag(s), None)
  }

  /** The page name of `dir/name` is `name` whenever `name` has no slash. */
  lemma PageNameOfJoin(dir: string, name: string)
    requires '/' !in name
    ensures PageName(dir + "/" + name) == name
  {
    Strings.SplitAround(dir, name, '/');
    Strings.SplitNoSeparator(name, '/');
  }

  /** A path ending in `/` names the empty page, which is protected: with no
      session it is sent to the login page. */
  lemma TrailingSlashIsProtected(s: Store, dir: string)
    requires !LoggedIn(s)
    ensures PageName(dir + "/") == ""
    ensures CheckAuth(s, dir + "/") == AuthCheck(JsBool(false), Some(LoginPage))
  {
    PageNameOfJoin(dir, "");
    assert dir + "/" + "" == dir + "/";
  }

  /** `CheckAuth` in isolation: its redirect target, checked against the same
      store, asks for no further redirect. In the page itself every
      navigation reloads the script, which clears the store first; what the
      destination then sees is stated by `FreshLoadGate`. */
  lemma RedirectSettles(s: Store, path: string)
    requires CheckAuth(s, path).redirect.Some?
    ensures CheckAuth(s, CheckAuth(s, path).redirect.value).redirect == None
  {
    var target := CheckAuth(s, path).redirect.value;
    Strings.SplitNoSeparator(target, '/');
  }

  /** On a freshly loaded page there is never a session, so every protected
      page sends the visitor to the login page with `false`, and a public
      page stays where it is with the absent flag, `null`. */
  lemma FreshLoadGate(prior: Store, path: string)
    ensures var r := CheckAuth(PageLoad(prior), path);
      !Truthy(r.result) &&
      (r.redirect == Some(LoginPage) <==> !IsPublic(PageName(path))) &&
      (r.redirect != Some(HomePage))
    ensures var public := IsPublic(PageName(path));
      CheckAuth(PageLoad(prior), path) ==
        AuthCheck(if public then JsNull else JsBool(false), if public then None else Some(LoginPage))
  {
  }
}

=== FILE: content.dfy ===
/** The gated content handlers: review, discussion, share and save. Each
    suppresses the event's default action, asks `CheckAuth`, and acts only
    when its result is truthy. Container contents are modelled as the
    sequence of their child nodes, first child first. */
module Content {
  import opened Wrappers
  import Strings
  import opened Session
  import opened Access

  /** A child of a content container: a card (review or discussion message)
      or a bare paragraph such as a "No messages yet" placeholder. A card's
      `body` is its `<p>` element, `None` once that element is removed. */
  datatype Node =
    | Card(author: string, date: string, stars: Option<string>, heading: Option<string>, body: Option<string>)
    | Para(text: string)

  /** The review form's fields; `rating` is the value of the checked rating
      radio button, `None` when none is checked. */
  datatype ReviewForm = ReviewForm(name: string, title: string, rating: Option<int>, text: string)

  /** The alerts a content handler can show. */
  datatype ContentAlert = PleaseSelectRating | ThanksForReview

  /** What a gated handler did: whether the event default was suppressed, the
      navigation `CheckAuth` requested, the container afterwards, whether
      the form was reset, and the alert shown, if any. */
  datatype Outcome = Outcome(
    prevented: bool,
    redirect: Option<string>,
    nodes: seq<Node>,
    formReset: bool,
    alert: Option<ContentAlert>)

  /** What a handler that changes no content did: whether the event default
      was suppressed, the navigation `CheckAuth` requested, whether the form
      was reset and whether the success alert was shown. */
  datatype Ack = Ack(prevented: bool, redirect: Option<string>, formReset: bool, acknowledged: bool)

  const DefaultTitle: string := "Great recipe!"
  const JustNow: string := "Just now"
  const NoMessagesYet: string := "No messages yet"

  /** `'★'.repeat(rating) + '☆'.repeat(5 - rating)`; `None` where either count
      is negative, for which `repeat` throws a RangeError. */
  function Stars(rating: int): (r: Option<string>)
    ensures r.Some? <==> 0 <= rating <= 5
    ensures r.Some? ==> |r.value| == 5
    ensures r.Some? ==> forall i :: 0 <= i < 5 ==> (r.value[i] == '★' <==> i < rating)
    ensures r.Some? ==> forall i :: 0 <= i < 5 ==> (r.value[i] == '☆' <==> rating <= i)
  {
    if rating < 0 || 5 - rating < 0 then None
    else Some(Strings.Repeat('★', rating) + Strings.Repeat('☆', 5 - rating))
  }

  /** `title || 'Great recipe!'`. */
  function Heading(title: string): (h: string)
    ensures h != ""
    ensures title != "" ==> h == title
    ensures title == "" ==> h == DefaultTitle
  {
    if title != "" then title else DefaultTitle
  }

  /** The review form's submit handler. The review is dated by `date`, the
      caller's rendering of today's date. */
  function SubmitReview(s: Store, path: string, form: ReviewForm, date: string, reviews: seq<Node>)
    : (r: Outcome)
    ensures r.prevented
    ensures r.redirect == CheckAuth(s, path).redirect
    ensures |r.nodes| == |reviews| + 1 <==>
              LoggedIn(s) && form.rating.Some? && 0 <= form.rating.value <= 5
    ensures |r.nodes| != |reviews| + 1 ==> r.nodes == reviews && !r.formReset
    ensures r.alert == Some(PleaseSelectRating) <==> LoggedIn(s) && form.rating.None?
    ensures r.alert == Some(ThanksForReview) <==> |r.nodes| == |reviews| + 1
    ensures |r.nodes| == |reviews| + 1 ==>
              && r.nodes[1..] == reviews
              && r.nodes[0].Card?
              && r.nodes[0].author == form.name
              && r.nodes[0].date == date
              && r.nodes[0].stars == Stars(form.rating.value)
              && r.nodes[0].heading == Some(Heading(form.title))
              && r.nodes[0].body == Some(form.text)
              && r.formReset
  {
    var auth := CheckAuth(s, path);
    if !Truthy(auth.result) then Outcome(true, auth.redirect, reviews, false, None)
    else match form.rating
      case None => Outcome(true, auth.redirect, reviews, false, Some(PleaseSelectRating))
      case Some(rating) =>
        match Stars(rating)
        case None => Outcome(true, auth.redirect, reviews, false, None)
        case Some(stars) =>
          var card := Card(form.name, date, Some(stars), Some(Heading(form.title)), Some(form.text));
          Outcome(true, auth.redirect, [card] + reviews, true, Some(ThanksForReview))
  }

  /** The index of the first element satisfying `p`, in order. */
  function FirstWhere<T>(xs: seq<T>, p: T -> bool): (r: Option<nat>)
    ensures r.Some? ==> r.value < |xs| && p(xs[r.value])
    ensures r.Some? ==> forall j :: 0 <= j < r.value ==> !p(xs[j])
    ensures r.None? ==> forall j :: 0 <= j < |xs| ==> !p(xs[j])
  {
    if |xs| == 0 then None
    else if p(xs[0]) then Some(0)
    else match FirstWhere(xs[1..], p)
      case None => None
      case Some(k) => Some(k + 1)
  }

  /** The node holds a `<p>` element. */
  predicate HasParagraph(n: Node)
  {
    n.Para? || n.body.Some?
  }

  /** The text of the node's `<p>` element. */
  function ParagraphText(n: Node): string
    requires HasParagraph(n)
  {
    if n.Para? then n.text else n.body.value
  }

  /** `querySelector('p')` on the container, then `.remove()` on it when its
      text includes "No messages yet": a bare paragraph leaves the container,
      a card's paragraph leaves the card. */
  function RemoveFirstParagraphIfNotice(nodes: seq<Node>): (r: seq<Node>)
    ensures |r| <= |nodes|
  {
    match FirstWhere(nodes, HasParagraph)
    case None => nodes
    case Some(k) =>
      if !Strings.Includes(ParagraphText(nodes[k]), NoMessagesYet) then nodes
      else if nodes[k].Para? then nodes[..k] + nodes[k + 1..]
      else nodes[k := nodes[k].(body := None)]
  }

  /** The new discussion card. */
  function Message(name: string, message: string): Node
  {
    Card(name, JustNow, None, None, Some(message))
  }

  /** The discussion form's submit handler as the script writes it: the card
      is prepended first and only then is the container searched for its
      first paragraph, which is therefore always the new card's own. */
  function PostDiscussionAsWritten(s: Store, path: string, name: string, message: string, nodes: seq<Node>)
    : (r: Outcome)
    ensures r.prevented
    ensures r.redirect == CheckAuth(s, path).redirect
    ensures !LoggedIn(s) ==> r.nodes == nodes && !r.formReset
    ensures r.alert == None
  {
    var auth := CheckAuth(s, path);
    if !Truthy(auth.result) then Outcome(true, auth.redirect, nodes, false, None)
    else
      var prepended := [Message(name, message)] + nodes;
      Outcome(true, auth.redirect, RemoveFirstParagraphIfNotice(prepended), true, None)
  }

  /** What the as-written handler does: it never removes anything from the
      earlier content — a placeholder included — and it strips the new
      message's own body exactly when that body mentions "No messages yet". */
  lemma AsWrittenKeepsPlaceholder(s: Store, path: string, name: string, message: string, nodes: seq<Node>)
    requires LoggedIn(s)
    ensures var r := PostDiscussionAsWritten(s, path, name, message, nodes);
      && r.nodes[1..] == nodes
      && r.nodes[0] == (if Strings.Includes(message, NoMessagesYet)
                        then Message(name, message).(body := None)
                        else Message(name, message))
  {
  }

  /** A concrete case: the first post into a container showing only the
      placeholder leaves the placeholder in place. */
  lemma AsWrittenPlaceholderSurvives(s: Store, path: string)
    requires LoggedIn(s)
    ensures var placeholder := Para("No messages yet. Start the conversation!");
      var r := PostDiscussionAsWritten(s, path, "Ann", "Hello", [placeholder]);
      r.nodes == [Message("Ann", "Hello"), placeholder]
  {
  }

  /** The placeholder notice: a bare paragraph mentioning "No messages yet". */
  predicate IsNotice(n: Node)
  {
    n.Para? && Strings.Includes(n.text, NoMessagesYet)
  }

  /** The number of placeholder notices among `nodes`. */
  function NoticeCount(nodes: seq<Node>): nat
  {
    if |nodes| == 0 then 0
    else (if IsNotice(nodes[0]) then 1 else 0) + NoticeCount(nodes[1..])
  }

  /** Removes the first placeholder notice, if there is one. */
  function RemoveNotice(nodes: seq<Node>): (r: seq<Node>)
    ensures NoticeCount(nodes) == 0 ==> r == nodes
    ensures NoticeCount(nodes) > 0 ==>
              |r| == |nodes| - 1 && NoticeCount(r) == NoticeCount(nodes) - 1
    ensures forall n :: n in r ==> n in nodes
    ensures forall n :: n in nodes && !IsNotice(n) ==> n in r
  {
    if |nodes| == 0 then nodes
    else if IsNotice(nodes[0]) then nodes[1..]
    else
      var rest := RemoveNotice(nodes[1..]);
      assert nodes == [nodes[0]] + nodes[1..];
      assert ([nodes[0]] + rest)[1..] == rest;
      [nodes[0]] + rest
  }

  /** A node that is not a notice is kept at the front. */
  lemma RemoveNoticeKeepsHead(nodes: seq<Node>)
    requires |nodes| > 0 && !IsNotice(nodes[0])
    ensures RemoveNotice(nodes) == [nodes[0]] + RemoveNotice(nodes[1..])
  {
  }

  /** Deleting index `k - 1` of the tail and putting the head back deletes
      index `k` of the whole. */
  lemma DeleteUnderHead<T>(xs: seq<T>, k: nat)
    requires 0 < k < |xs|
    ensures [xs[0]] + (xs[1..][..k - 1] + xs[1..][k..]) == xs[..k] + xs[k + 1..]
  {
  }

  /** No notice before index `k` means none before `k - 1` in the tail. */
  lemma NoNoticeInTailPrefix(nodes: seq<Node>, k: nat)
    requires 0 < k <= |nodes|
    requires forall j :: 0 <= j < k ==> !IsNotice(nodes[j])
    ensures forall j :: 0 <= j < k - 1 ==> !IsNotice(nodes[1..][j])
  {
  }

  /** The notice removed is the first one, and every other node keeps its
      place: removal is deletion at the first notice's index. */
  lemma {:induction false} RemoveNoticeDeletesFirst(nodes: seq<Node>, k: nat)
    requires k < |nodes|
    requires IsNotice(nodes[k])
    requires forall j :: 0 <= j < k ==> !IsNotice(nodes[j])
    ensures RemoveNotice(nodes) == nodes[..k] + nodes[k + 1..]
  {
    if k == 0 {
      assert nodes[..0] + nodes[1..] == nodes[1..];
    } else {
      RemoveNoticeKeepsHead(nodes);
      NoNoticeInTailPrefix(nodes, k);
      RemoveNoticeDeletesFirst(nodes[1..], k - 1);
      DeleteUnderHead(nodes, k);
    }
  }

  /** The discussion form's submit handler with the evidently intended
      clean-up: the new card goes first and the placeholder notice of the
      earlier content, if any, is removed. */
  function PostDiscussion(s: Store, path: string, name: string, message: string, nodes: seq<Node>)
    : (r: Outcome)
    ensures r.prevented
    ensures r.redirect == CheckAuth(s, path).redirect
    ensures !LoggedIn(s) ==> r.nodes == nodes && !r.formReset
    ensures LoggedIn(s) ==>
              && |r.nodes| >= 1
              && r.nodes[0] == Message(name, message)
              && r.nodes[1..] == RemoveNotice(nodes)
              && r.formReset
    ensures r.alert == None
  {
    var auth := CheckAuth(s, path);
    if !Truthy(auth.result) then Outcome(true, auth.redirect, nodes, false, None)
    else Outcome(true, auth.redirect, [Message(name, message)] + RemoveNotice(nodes), true, None)
  }

  /** With at most one placeholder shown, the corrected handler leaves none:
      the notice disappears on the first successful post and every later
      post removes nothing. */
  lemma PostClearsNotice(s: Store, path: string, name: string, message: string, nodes: seq<Node>)
    requires LoggedIn(s)
    requires NoticeCount(nodes) <= 1
    ensures NoticeCount(PostDiscussion(s, path, name, message, nodes).nodes) == 0
    ensures var r := PostDiscussion(s, path, name, message, nodes);
      NoticeCount(nodes) == 0 ==> r.nodes == [Message(name, message)] + nodes
  {
  }

  /** The share form's submit handler: after a truthy `CheckAuth` it only
      acknowledges and resets the form; it changes no content. */
  function SubmitShare(s: Store, path: string): (r: Ack)
    ensures r.prevented
    ensures r.redirect == CheckAuth(s, path).redirect
    ensures r.acknowledged <==> LoggedIn(s)
    ensures r.formReset <==> LoggedIn(s)
  {
    var auth := CheckAuth(s, path);
    Ack(true, auth.redirect, Truthy(auth.result), Truthy(auth.result))
  }

  /** The document-wide click handler: only a click on an element whose text
      is exactly "Save" is handled; `target` is the clicked element's text,
      `None` for no target. */
  function ClickSave(s: Store, path: string, target: Option<string>): (r: Ack)
    ensures !r.formReset
    ensures r.prevented <==> target == Some("Save")
    ensures target != Some("Save") ==> r.redirect == None && !r.acknowledged
    ensures target == Some("Save") ==>
              r.redirect == CheckAuth(s, path).redirect && (r.acknowledged <==> LoggedIn(s))
  {
    if target == Some("Save") then
      var auth := CheckAuth(s, path);
      Ack(true, auth.redirect, false, Truthy(auth.result))
    else
      Ack(false, None, false, false)
  }
}

=== FILE: filter.dfy ===
/** The recipe filter buttons: ungated. A click marks the clicked button as
    the only active one and shows exactly the cards its filter selects. */
module Filter {
  import opened Wrappers

  /** A filter button: its `data-filter` attribute (`None` when missing, which
      `getAttribute` reports as `null`) and whether it has the `active` class. */
  datatype Button = Button(filter: Option<string>, active: bool)

  /** A recipe card: its `data-category` attribute and whether it is
      displayed (`display: block`) or hidden (`display: none`). */
  datatype RecipeCard = RecipeCard(category: Option<string>, visible: bool)

  datatype Filters = Filters(buttons: seq<Button>, cards: seq<RecipeCard>)

  /** `filter === 'all' || card.getAttribute('data-category') === filter`;
      two missing attributes are both `null` and compare equal. */
  predicate Selects(filter: Option<string>, category: Option<string>)
  {
    filter == Some("all") || category == filter
  }

  /** Every button with its `active` class set exactly when it is the one at
      index `clicked`. */
  function Activate(buttons: seq<Button>, clicked: int): (r: seq<Button>)
    ensures |r| == |buttons|
    ensures forall j :: 0 <= j < |r| ==> r[j].filter == buttons[j].filter
    ensures forall j :: 0 <= j < |r| ==> (r[j].active <==> j == clicked)
  {
    if |buttons| == 0 then []
    else [buttons[0].(active := clicked == 0)] + Activate(buttons[1..], clicked - 1)
  }

  /** Every card shown or hidden according to `filter`. */
  function Show(cards: seq<RecipeCard>, filter: Option<string>): (r: seq<RecipeCard>)
    ensures |r| == |cards|
    ensures forall j :: 0 <= j < |r| ==> r[j].category == cards[j].category
    ensures forall j :: 0 <= j < |r| ==> (r[j].visible <==> Selects(filter, cards[j].category))
  {
    if |cards| == 0 then []
    else [cards[0].(visible := Selects(filter, cards[0].category))] + Show(cards[1..], filter)
  }

  /** The click handler of the button at index `clicked`. */
  function Click(f: Filters, clicked: nat): (r: Filters)
    requires clicked < |f.buttons|
    ensures |r.buttons| == |f.buttons| && |r.cards| == |f.cards|
    ensures forall j :: 0 <= j < |r.buttons| ==> r.buttons[j].filter == f.buttons[j].filter
    ensures forall j :: 0 <= j < |r.buttons| ==> (r.buttons[j].active <==> j == clicked)
    ensures forall j :: 0 <= j < |r.cards| ==> r.cards[j].category == f.cards[j].category
    ensures forall j :: 0 <= j < |r.cards| ==>
              (r.cards[j].visible <==> Selects(f.buttons[clicked].filter, f.cards[j].category))
  {
    Filters(Activate(f.buttons, clicked), Show(f.cards, f.buttons[clicked].filter))
  }

  /** Clicking the same button twice leaves the page as one click did. */
  lemma ClickIdempotent(f: Filters, clicked: nat)
    requires clicked < |f.buttons|
    ensures Click(Click(f, clicked), clicked) == Click(f, clicked)
  {
  }

  /** The state after a click depends only on which button was clicked, not
      on what was active or visible before. */
  lemma ClickForgetsHistory(f: Filters, g: Filters, clicked: nat)
    requires clicked < |f.buttons|
    requires |g.buttons| == |f.buttons| && |g.cards| == |f.cards|
    requires forall j :: 0 <= j < |f.buttons| ==> g.buttons[j].filter == f.buttons[j].filter
    requires forall j :: 0 <= j < |f.cards| ==> g.cards[j].category == f.cards[j].category
    ensures Click(g, clicked) == Click(f, clicked)
  {
  }

  /** The "all" button shows every card; any other button shows exactly the
      cards of its category. */
  lemma ClickShowsCategory(f: Filters, clicked: nat, category: string)
    requires clicked < |f.buttons|
    requires f.buttons[clicked].filter == Some(category)
    ensures forall j :: 0 <= j < |f.cards| ==>
              (Click(f, clicked).cards[j].visible <==>
               category == "all" || f.cards[j].category == Some(category))
  {
  }
}

=== FILE: page.dfy ===
/** One loaded page as a state machine: the session store plus the content
    the handlers touch, driven by one event at a time. Navigation requested
    by a handler is reported, not followed: the page stays as it is. */
module Page {
  import opened Wrappers
  import opened Session
  import opened Access
  import opened Content
  import Filter

  datatype PageState = PageState(
    store: Store,
    path: string,
    reviews: seq<Node>,
    discussion: seq<Node>,
    filters: Filter.Filters)

  /** The user-facing events the script listens for. `FilterClick` names the
      clicked button by its index; `Click` carries the clicked element's text. */
  datatype Event =
    | LoginSubmit(email: string, password: string)
    | SignupSubmit(name: string, email: string, password: string, confirm: string)
    | LogoutCall
    | ReviewSubmit(form: ReviewForm, date: string)
    | DiscussionSubmit(name: string, message: string)
    | ShareSubmit
    | Click(target: Option<string>)
    | FilterClick(button: nat)

  /** Script load followed by the `DOMContentLoaded` check: whatever the
      store held, both keys are removed and then `CheckAuth` runs. */
  function Boot(prior: Store, path: string, reviews: seq<Node>, discussion: seq<Node>, filters: Filter.Filters)
    : (r: (PageState, Option<string>))
    ensures Valid(r.0.store) && !LoggedIn(r.0.store)
    ensures r.1 == Some(LoginPage) <==> !IsPublic(PageName(path))
    ensures r.1 != Some(HomePage)
    ensures r.0 == PageState(Cleared, path, reviews, discussion, filters)
    ensures r.1 == (if IsPublic(PageName(path)) then None else Some(LoginPage))
  {
    var store := PageLoad(prior);
    (PageState(store, path, reviews, discussion, filters), CheckAuth(store, path).redirect)
  }

  /** Routes one event to its handler; the result is the state afterwards and
      the navigation the handler requested. */
  function Step(p: PageState, e: Event): (r: (PageState, Option<string>))
    ensures Valid(p.store) ==> Valid(r.0.store)
    ensures r.0.path == p.path
    ensures !e.LoginSubmit? && !e.SignupSubmit? && !e.LogoutCall? ==> r.0.store == p.store
    ensures !LoggedIn(p.store) && !e.FilterClick? ==>
              r.0.reviews == p.reviews && r.0.discussion == p.discussion
    ensures e.ReviewSubmit? && r.0.reviews != p.reviews ==>
              LoggedIn(p.store) && |r.0.reviews| == |p.reviews| + 1 && r.0.reviews[1..] == p.reviews
    ensures e.DiscussionSubmit? && LoggedIn(p.store) ==>
              && |r.0.discussion| >= 1
              && r.0.discussion[0] == Message(e.name, e.message)
              && r.0.discussion[1..] == RemoveNotice(p.discussion)
    ensures e.LogoutCall? ==> r.1 == Some(LoginPage)
    ensures e.LoginSubmit? ==>
              (r.1 == Some(HomePage) <==> e.email != "" && e.password != "") &&
              (r.1 != Some(HomePage) ==> r.1 == None)
    ensures e.SignupSubmit? ==>
              (r.1 == Some(HomePage) <==>
               e.password == e.confirm && e.name != "" && e.email != "" && e.password != "") &&
              (r.1 != Some(HomePage) ==> r.1 == None)
    ensures (e.ReviewSubmit? || e.DiscussionSubmit? || e.ShareSubmit? || (e.Click? && e.target == Some("Save"))) ==>
              r.1 == CheckAuth(p.store, p.path).redirect
    ensures (e.FilterClick? || (e.Click? && e.target != Some("Save"))) ==> r.1 == None
    ensures e.FilterClick? && e.button >= |p.filters.buttons| ==> r.0 == p
    ensures !e.ReviewSubmit? ==> r.0.reviews == p.reviews
    ensures !e.DiscussionSubmit? ==> r.0.discussion == p.discussion
    ensures !e.FilterClick? ==> r.0.filters == p.filters
    ensures e.ReviewSubmit? ==>
              (|r.0.reviews| == |p.reviews| + 1 <==>
               LoggedIn(p.store) && e.form.rating.Some? && 0 <= e.form.rating.value <= 5)
    ensures e.FilterClick? && e.button < |p.filters.buttons| ==>
              && |r.0.filters.buttons| == |p.filters.buttons|
              && (forall j :: 0 <= j < |r.0.filters.buttons| ==> (r.0.filters.buttons[j].active <==> j == e.button))
              && (forall j :: 0 <= j < |r.0.filters.buttons| ==> r.0.filters.buttons[j].filter == p.filters.buttons[j].filter)
              && |r.0.filters.cards| == |p.filters.cards|
              && (forall j :: 0 <= j < |r.0.filters.cards| ==> r.0.filters.cards[j].category == p.filters.cards[j].category)
              && (forall j :: 0 <= j < |r.0.filters.cards| ==>
                    (r.0.filters.cards[j].visible <==>
                     Filter.Selects(p.filters.buttons[e.button].filter, p.filters.cards[j].category)))
  {
    match e
    case LoginSubmit(email, password) =>
      var t := Login(p.store, email, password);
      (p.(store := t.store), t.redirect)
    case SignupSubmit(name, email, password, confirm) =>
      var t := Signup(p.store, name, email, password, confirm);
      (p.(store := t.store), t.redirect)
    case LogoutCall =>
      var t := Logout(p.store);
      (p.(store := t.store), t.redirect)
    case ReviewSubmit(form, date) =>
      var o := SubmitReview(p.store, p.path, form, date, p.reviews);
      (p.(reviews := o.nodes), o.redirect)
    case DiscussionSubmit(name, message) =>
      var o := PostDiscussion(p.store, p.path, name, message, p.discussion);
      (p.(discussion := o.nodes), o.redirect)
    case ShareSubmit =>
      (p, SubmitShare(p.store, p.path).redirect)
    case Click(target) =>
      (p, ClickSave(p.store, p.path, target).redirect)
    case FilterClick(i) =>
      if i < |p.filters.buttons| then (p.(filters := Filter.Click(p.filters, i)), None)
      else (p, None)
  }

  /** The state after handling `events` in order. */
  function Run(p: PageState, events: seq<Event>): PageState
    decreases |events|
  {
    if |events| == 0 then p else Run(Step(p, events[0]).0, events[1..])
  }

  /** From any prior store, a booted page keeps the session invariant through
      every sequence of events: the login flag and the user record are always
      present together or absent together. */
  lemma {:induction false} RunKeepsValid(p: PageState, events: seq<Event>)
    requires Valid(p.store)
    ensures Valid(Run(p, events).store)
    decreases |events|
  {
    if |events| > 0 {
      RunKeepsValid(Step(p, events[0]).0, events[1..]);
    }
  }

  /** Only the three credential events change the store: a run of content
      events leaves the session exactly as it was. */
  lemma {:induction false} ContentEventsKeepSession(p: PageState, events: seq<Event>)
    requires forall i :: 0 <= i < |events| ==>
               !events[i].LoginSubmit? && !events[i].SignupSubmit? && !events[i].LogoutCall?
    ensures Run(p, events).store == p.store
    decreases |events|
  {
    if |events| > 0 {
      ContentEventsKeepSession(Step(p, events[0]).0, events[1..]);
    }
  }

  /** Without a session no content list ever changes: a run with no
      credential events, started logged out, leaves reviews and discussion
      as they were. */
  lemma {:induction false} LoggedOutChangesNoContent(p: PageState, events: seq<Event>)
    requires !LoggedIn(p.store)
    requires forall i :: 0 <= i < |events| ==>
               !events[i].LoginSubmit? && !events[i].SignupSubmit? && !events[i].LogoutCall?
    ensures Run(p, events).reviews == p.reviews
    ensures Run(p, events).discussion == p.discussion
    decreases |events|
  {
    if |events| > 0 {
      LoggedOutChangesNoContent(Step(p, events[0]).0, events[1..]);
    }
  }
}

=== FILE: session.dfy ===
/** The session store: the two `localStorage` keys the script writes
    (`isLoggedIn`, `currentUser`) and the transitions that write them —
    clearing on script load and on logout, setting on login and signup. */
module Session {
  import opened Wrappers
  import Strings

  /** The record serialised under `currentUser`. */
  datatype User = User(name: string, email: string)

  /** The two keys; `None` is a key that `getItem` reports absent. The JSON
      encoding of `currentUser` is not modelled: the record is kept as is. */
  datatype Store = Store(isLoggedIn: Option<string>, currentUser: Option<User>)

  /** What the user is told by a blocking `alert`; the exact wording is not
      modelled, only which message it is. */
  datatype Notice =
    | LoginSuccessful
    | FillInAllFields
    | PasswordsDoNotMatch
    | AccountCreated(name: string)

  /** Result of a session transition: the store afterwards, the page the
      script navigates to (if any) and the alert shown (if any). */
  datatype Transition = Transition(store: Store, redirect: Option<string>, notice: Option<Notice>)

  const HomePage: string := "index.html"
  const LoginPage: string := "login.html"

  /** A store with neither key. */
  const Cleared: Store := Store(None, None)

  /** The two-state invariant: both keys are present or neither is, and the
      login flag, when present, is the string `'true'`. */
  predicate Valid(s: Store)
  {
    && (s.isLoggedIn.Some? <==> s.currentUser.Some?)
    && (s.isLoggedIn.Some? ==> s.isLoggedIn.value == "true")
  }

  /** JavaScript truthiness of `localStorage.getItem('isLoggedIn')`: `null`
      and the empty string are falsy, every other string is truthy. */
  predicate LoggedIn(s: Store)
  {
    s.isLoggedIn.Some? && s.isLoggedIn.value != ""
  }

  /** The store as the script finds it at load time, whatever an earlier page
      left behind: both keys are removed before anything else runs. */
  function PageLoad(prior: Store): (s: Store)
    ensures Valid(s) && !LoggedIn(s)
    ensures s.currentUser == None
  {
    Cleared
  }

  /** `logout()`: both keys removed, then navigation to the login page. */
  function Logout(prior: Store): (r: Transition)
    ensures Valid(r.store) && !LoggedIn(r.store)
    ensures r.store.currentUser == None
    ensures r.redirect == Some(LoginPage)
    ensures r.notice == None
  {
    Transition(Cleared, Some(LoginPage), None)
  }

  /** The display name derived from a login email: `email.split('@')[0]`. */
  function NameFromEmail(email: string): (name: string)
    ensures '@' !in name
    ensures name == email ||
            (|name| < |email| && email[..|name|] == name && email[|name|] == '@')
  {
    Strings.FirstPart(email, '@');
    Strings.Split(email, '@')[0]
  }

  /** The login form's submit handler. Any pair of non-empty fields is
      accepted; an empty field leaves the store untouched. */
  function Login(prior: Store, email: string, password: string): (r: Transition)
    ensures r.notice == Some(LoginSuccessful) <==> email != "" && password != ""
    ensures r.notice == Some(LoginSuccessful) ==>
              && r.store.isLoggedIn == Some("true")
              && r.store.currentUser.Some?
              && r.store.currentUser.value.email == email
              && r.store.currentUser.value.name == NameFromEmail(email)
              && r.redirect == Some(HomePage)
    ensures r.notice != Some(LoginSuccessful) ==>
              r.store == prior && r.redirect == None && r.notice == Some(FillInAllFields)
  {
    if email != "" && password != "" then
      var user := User(NameFromEmail(email), email);
      Transition(Store(Some("true"), Some(user)), Some(HomePage), Some(LoginSuccessful))
    else
      Transition(prior, None, Some(FillInAllFields))
  }

  /** The signup form's submit handler. A password mismatch is reported
      before any empty field is looked at; either rejection leaves the store
      untouched. */
  function Signup(prior: Store, name: string, email: string, password: string, confirm: string)
    : (r: Transition)
    ensures password != confirm ==>
              r.store == prior && r.redirect == None && r.notice == Some(PasswordsDoNotMatch)
    ensures password == confirm && (name == "" || email == "" || password == "") ==>
              r.store == prior && r.redirect == None && r.notice == Some(FillInAllFields)
    ensures r.notice == Some(AccountCreated(name)) <==>
              password == confirm && name != "" && email != "" && password != ""
    ensures r.notice == Some(AccountCreated(name)) ==>
              && r.store == Store(Some("true"), Some(User(name, email)))
              && r.redirect == Some(HomePage)
  {
    if password != confirm then
      Transition(prior, None, Some(PasswordsDoNotMatch))
    else if name == "" || email == "" || password == "" then
      Transition(prior, None, Some(FillInAllFields))
    else
      Transition(Store(Some("true"), Some(User(name, email))), Some(HomePage), Some(AccountCreated(name)))
  }

  /** `currentUser.name || 'User'` as shown in the header for a logged-in
      visitor; a missing record parses as `{}`, whose name is undefined. */
  function DisplayName(s: Store): (r: string)
    ensures r != ""
    ensures s.currentUser.Some? && s.currentUser.value.name != "" ==> r == s.currentUser.value.name
    ensures s.currentUser.None? || s.currentUser.value.name == "" ==> r == "User"
  {
    match s.currentUser
    case Some(u) => if u.name != "" then u.name else "User"
    case None => "User"
  }

  /** Every write to the store sets or clears both keys together, so from any
      valid store each transition leads to a valid store. */
  lemma TransitionsKeepValid(s: Store, email: string, name: string, password: string, confirm: string)
    requires Valid(s)
    ensures Valid(PageLoad(s))
    ensures Valid(Logout(s).store)
    ensures Valid(Login(s, email, password).store)
    ensures Valid(Signup(s, name, email, password, confirm).store)
  {
  }

  /** In a valid store the login flag and the user record agree, so the two
      states of the session are exactly "logged in with a user" and "logged
      out with none". */
  lemma ValidIsTwoState(s: Store)
    requires Valid(s)
    ensures LoggedIn(s) <==> s.currentUser.Some?
    ensures !LoggedIn(s) ==> s == Cleared
  {
  }

  /** The derived name is exactly the text before the first `@`, and the
      whole email when it has no `@`. */
  lemma NameIsTextBeforeFirstAt(email: string, k: nat)
    requires k <= |email|
    requires '@' !in email[..k]
    requires k == |email| || email[k] == '@'
    ensures NameFromEmail(email) == email[..k]
  {
  }

  /** A successful login makes the visitor logged in, with the local part of
      the email as the name; e.g. `a@b.com` logs in as `a`. */
  lemma LoginExample()
    ensures var r := Login(Cleared, "a@b.com", "pw");
      LoggedIn(r.store) && r.store.currentUser == Some(User("a", "a@b.com"))
  {
    assert "a@b.com"[..1] == "a";
    NameIsTextBeforeFirstAt("a@b.com", 1);
  }

  /** The header name `DisplayName` computes from the store a successful
      login leaves is the email's local part, or "User" when that part is
      empty. The page never shows it: the login redirects, and the reload
      clears the store before the header is filled. */
  lemma LoginDisplayName(prior: Store, email: string, password: string)
    requires email != "" && password != ""
    ensures var shown := DisplayName(Login(prior, email, password).store);
      (email[0] == '@' ==> shown == "User") &&
      (email[0] != '@' ==> shown == NameFromEmail(email) && shown[0] == email[0])
  {
  }
}

=== FILE: strings.dfy ===
/** The three JavaScript string operations the script relies on, over
    `seq<char>`: `String.prototype.split` with a one-character separator,
    `String.prototype.repeat` and `String.prototype.includes`. */
module Strings {

  /** Inverse of `Split`: the parts glued back together with `sep`. */
  function Join(parts: seq<string>, sep: char): string
  {
    if |parts| == 0 then ""
    else if |parts| == 1 then parts[0]
    else parts[0] + [sep] + Join(parts[1..], sep)
  }

  /** `s.split(sep)`: always at least one part (`"".split("/")` is `[""]`),
      no part holds the separator, and joining the parts gives back `s`. */
  function Split(s: string, sep: char): (parts: seq<string>)
    ensures |parts| >= 1
    ensures forall i :: 0 <= i < |parts| ==> sep !in parts[i]
    ensures Join(parts, sep) == s
  {
    if |s| == 0 then [""]
    else
      var rest := Split(s[1..], sep);
      if s[0] == sep then
        assert s == [sep] + s[1..];
        [""] + rest
      else
        var parts := [[s[0]] + rest[0]] + rest[1..];
        assert parts[1..] == rest[1..];
        assert s == [s[0]] + s[1..];
        parts
  }

  /** The last element of a non-empty sequence (JavaScript's `pop()` result). */
  function Last<T>(xs: seq<T>): T
    requires |xs| >= 1
  {
    xs[|xs| - 1]
  }

  /** A string without the separator splits into itself alone. */
  lemma SplitNoSeparator(s: string, sep: char)
    requires sep !in s
    ensures Split(s, sep) == [s]
  {
  }

  /** Splitting `a + sep + b` splits `a` and `b` independently. */
  lemma {:induction false} SplitAround(a: string, b: string, sep: char)
    ensures Split(a + [sep] + b, sep) == Split(a, sep) + Split(b, sep)
  {
    if |a| == 0 {
      assert a + [sep] + b == [sep] + b;
      assert ([sep] + b)[1..] == b;
    } else {
      assert (a + [sep] + b)[1..] == a[1..] + [sep] + b;
      assert (a + [sep] + b)[0] == a[0];
      SplitAround(a[1..], b, sep);
    }
  }

  /** The other half of the round trip: parts free of the separator survive
      `Join` followed by `Split`. */
  lemma {:induction false} SplitJoin(parts: seq<string>, sep: char)
    requires |parts| >= 1
    requires forall i :: 0 <= i < |parts| ==> sep !in parts[i]
    ensures Split(Join(parts, sep), sep) == parts
  {
    if |parts| == 1 {
      SplitNoSeparator(parts[0], sep);
    } else {
      SplitJoin(parts[1..], sep);
      SplitNoSeparator(parts[0], sep);
      SplitAround(parts[0], Join(parts[1..], sep), sep);
      assert [parts[0]] + parts[1..] == parts;
    }
  }

  /** The first part is the text before the first separator, or all of `s`. */
  lemma FirstPart(s: string, sep: char)
    ensures var p := Split(s, sep)[0];
      sep !in p &&
      (p == s || (|p| < |s| && s[..|p|] == p && s[|p|] == sep))
  {
  }

  /** The last part is the text after the last separator, or all of `s`. */
  lemma LastPart(s: string, sep: char)
    ensures var p := Last(Split(s, sep));
      sep !in p &&
      (p == s || (|p| < |s| && s == s[..|s| - |p| - 1] + [sep] + p))
  {
  }

  /** `c.repeat(n)` for a count JavaScript accepts. */
  function Repeat(c: char, n: nat): (r: string)
    ensures |r| == n
    ensures forall i :: 0 <= i < n ==> r[i] == c
  {
    if n == 0 then "" else [c] + Repeat(c, n - 1)
  }

  /** `sub` occurs in `s` starting at index `i`. */
  predicate OccursAt(s: string, sub: string, i: nat)
  {
    i + |sub| <= |s| && s[i..i + |sub|] == sub
  }

  /** An occurrence of `sub` in `s` is either at the front or an occurrence
      in the tail shifted by one. */
  lemma OccursStep(s: string, sub: string)
    requires |s| > 0
    ensures (exists i: nat :: OccursAt(s, sub, i)) <==>
            (OccursAt(s, sub, 0) || exists i: nat :: OccursAt(s[1..], sub, i))
  {
    forall i: nat | OccursAt(s[1..], sub, i)
      ensures OccursAt(s, sub, i + 1)
    {
      assert s[i + 1..i + 1 + |sub|] == s[1..][i..i + |sub|];
    }
    forall i: nat | 0 < i && OccursAt(s, sub, i)
      ensures OccursAt(s[1..], sub, i - 1)
    {
      assert s[1..][i - 1..i - 1 + |sub|] == s[i..i + |sub|];
    }
  }

  /** `s.includes(sub)`, decided left to right. */
  function Includes(s: string, sub: string): (r: bool)
    ensures r <==> exists i: nat :: OccursAt(s, sub, i)
  {
    if |sub| > |s| then false
    else if s[..|sub|] == sub then
      assert OccursAt(s, sub, 0);
      true
    else
      OccursStep(s, sub);
      Includes(s[1..], sub)
  }
}

=== FILE: wrappers.dfy ===
/** The optional value used wherever the script reads something that may be
    absent: a storage key, a DOM attribute, a checked radio button. */
module Wrappers {

  datatype Option<+T> = None | Some(value: T)
}
